=== FILE: README.md ===
# Deepgram starter gallery: transform and filter pipeline

A Dafny model of the data pipeline behind the Deepgram starter gallery. The
pipeline has four steps:

- **Assembly.** The organization's repositories are listed. The
  `project-template` repository is dropped. Each remaining repository gets its
  `deepgram.toml` configuration attached when that file loads and parses.
- **Transform.** Each repository becomes a display record, a
  `ProcessedStarter`. Each field is taken from the configuration first, then
  from the repository, then from a fixed fallback.
- **Options.** The library's option builder, `getFilterOptions`, collects
  the distinct values of each filter dimension, sorted and de-duplicated.
- **Filtering.** The code holds two filters over display records:
  - the library's `filterStarters`;
  - the filter effect the gallery grid actually runs.

  They disagree on missing values and on tags. The model states both and
  compares them.

Modules, one file each:

| file | module | models |
|---|---|---|
| `js.dfy` | `Js` | the JavaScript value semantics the code relies on: `undefined` as `Option`, `\|\|` truthiness, ASCII case mapping, `includes`, the default string sort order |
| `sequences.dfy` | `Sequences` | `Array.prototype.filter` as `Filter`, with subsequence lemmas |
| `types.dfy` | `Types` | `Repo`, `TomlConfig`, `ProcessedStarter` and the filter state |
| `transform.dfy` | `Transform` | `transformToProcessedStarters`, `formatRepoName` |
| `filter_options.dfy` | `FilterOptions` | `getFilterOptions` |
| `library_filter.dfy` | `LibraryFilter` | `filterStarters` |
| `repo_data.dfy` | `RepoData` | the assembly step of `getRepoData`, with configuration loading as an oracle |
| `starter_grid.dfy` | `StarterGrid` | the filter effect of the gallery grid |

Behaviour of the code that is easy to misread:

- Nothing filters on visibility. Only the repository named `project-template` is dropped.
- A search string is not trimmed.
- Neither filter searches language, framework or category.
- The language filter is case-sensitive.
- The library filter lets a starter with no category, framework or vertical
  through. The grid filter drops it.
- The transform never fills `config` in the display record, although the
  type's comment says the full configuration is kept.
- The transform never sets `vertical`. So for starters from the API, the grid
  shows nothing while any vertical is selected
  (`StarterGrid.VerticalSelectionEmptiesGrid`). The page cannot reach this
  today: the sidebar sends only `language`, `category`, `framework` and an
  empty `tags` (src/components/FilterSidebar.tsx:62-70), never a `vertical` or
  a `search`, and src/app/page.tsx:48 hands exactly that to the grid.
- `getFilterOptions` and `filterStarters` have no caller. The sidebar's
  options are fixed lists (src/components/FilterSidebar.tsx:43-59), so the
  library filter and option builder are modelled as the library states them,
  not as something the page runs.
- The final `filter(result => result !== null)` of `getRepoData` is the
  identity, because no entry is ever null. It is folded away.

## Model

| member | source | states |
|---|---|---|
| Transform.FormatRepoName | src/lib/github.ts:131-136 | The title has the slug's length. Each `-` becomes a space. The first character and every character after a `-` are upper-cased (ASCII). Every other character is unchanged, so empty segments stay empty. |
| Transform.SplitJoinRoundTrip | src/lib/github.ts:133-135 | Splitting on a separator and joining with it gives the string back. No piece contains the separator. |
| Transform.FormatFirstWord | src/lib/github.ts:131-136 | A slug `w-rest` with `w` hyphen-free formats as `Capitalize(w) + " " + FormatRepoName(rest)`. |
| Transform.FormatTwoWords | src/lib/github.ts:131-136 | A slug of two hyphen-free pieces formats as the two capitalized pieces joined by a space. |
| Transform.FormatOneWord | src/lib/github.ts:131-136 | A slug with no hyphen is one capitalized word. |
| Transform.FormatRepoNameExample | src/lib/github.ts:107 | `node-live-transcription` becomes `Node Live Transcription`. |
| Transform.ToStarter | src/lib/github.ts:101-126 | `id`, `name`, `links.github` and `stats` always come from the repository. Description and language are never empty. The title is empty only when no configured title exists and the name is empty. `vertical` and `config` are never set. |
| Transform.TransformToProcessedStarters | src/lib/github.ts:100-128 | One record per repository, same length and order. The i-th record is built from the i-th repository. |
| Transform.TitlePrecedence | src/lib/github.ts:107 | A non-empty `meta.title` is the title. Otherwise the title is the formatted repository name. |
| Transform.DescriptionAndLanguagePrecedence | src/lib/github.ts:108-109 | Precedence is configured value, then repository value, then `No description available` / `Unknown`. An empty string falls through at each step. |
| Transform.TagsPrecedence | src/lib/github.ts:113 | Configured tags win whenever present, even when empty. Otherwise the repository topics are used, else no tags. |
| Transform.CategoryAndFrameworkFromConfigOnly | src/lib/github.ts:110-111 | Category is `meta.useCase` and framework is `meta.framework`, passed through as they are. Without a configuration, or with one that has no `[meta]` table, both are absent. |
| Transform.OnlyReadTablesMatter | src/lib/github.ts:102-126 | Two configurations that agree on `meta`, `tags`, `links` and `deployment` give the same record. |
| Transform.NoConfigFallbacks | src/lib/github.ts:104-126 | A repository without configuration gets only raw values and fallbacks. |
| Transform.ScenarioWithoutConfig | src/lib/github.ts:107-113 | Worked example without a configuration file: derived title, raw description and language, no tags. |
| Transform.ScenarioWithConfig | src/lib/github.ts:107-110 | Worked example: a configured title and framework win, and a missing configured description falls back to the repository's. |
| FilterOptions.SortedDistinct | src/lib/github.ts:155-159 | `Array.from(new Set(xs)).sort()`: strictly sorted, with exactly the elements of `xs`. |
| FilterOptions.GetFilterOptions | src/lib/github.ts:139-161 | All five lists are strictly sorted, so none has duplicates. A value is listed iff some starter has it as a non-empty language, category, framework or vertical. The tag list is the union of all tags. |
| FilterOptions.SortedListIsCanonical | src/lib/github.ts:155-159 | Two strictly sorted lists with the same elements are equal. |
| FilterOptions.FilterOptionsIgnoreOrder | src/lib/github.ts:139-161 | The option lists depend only on which starters occur, not on their order or repetition. |
| LibraryFilter.FilterStarters | src/lib/github.ts:164-218 | The result is a subsequence of the input. It holds every occurrence of each starter that passes the checks and no occurrence of one that fails them, which fixes it exactly. With no search text and no non-empty selection list, it is the whole input. |
| LibraryFilter.FilterStartersMembership | src/lib/github.ts:175-217 | A starter is kept iff it is in the input and passes every active check. Search is over title, description, name or a tag. Language is exact membership. A category, framework or vertical drops a starter only when present and unselected. Tags match case-insensitively. |
| LibraryFilter.EmptySearchDoesNotNarrow | src/lib/github.ts:177 | An empty search string filters like no search at all. |
| LibraryFilter.SearchIsCaseInsensitive | src/lib/github.ts:178-183 | Search terms that lower-case alike select the same starters. |
| LibraryFilter.TagFilterIsCaseInsensitive | src/lib/github.ts:209-214 | Tag selections that lower-case alike select the same starters. |
| LibraryFilter.MissingValuesPass | src/lib/github.ts:194-206 | When no starter has a category, framework or vertical, selections on those dimensions change nothing. |
| LibraryFilter.SearchThenRest | src/lib/github.ts:175-217 | Filtering by the search alone, then by the other checks, equals filtering by all checks at once. |
| RepoData.LoadConfig | src/lib/github.ts:72-84 | No file means no configuration. Failure happens iff decoding or parsing fails. Empty content is handed to the parser as the empty string, not decoded. A configuration is whatever the parser produced. |
| RepoData.Attach | src/lib/github.ts:73-84 | Only `repo_config` can change. It is set on success. On a missing or failed load the repository is returned unchanged. |
| RepoData.AssembleRepos | src/lib/github.ts:67-92 | Every `project-template` repository is removed, and nothing else. The length is the input length minus the templates. Every other repository appears with its load attached. Names and ids keep their relative order. |
| RepoData.GetRepoData | src/lib/github.ts:66-92 | The assembled list is as long as the number of non-template repositories, whatever the fetch, decoder and parser do. |
| RepoData.FailureIsMissingConfig | src/lib/github.ts:73-85 | A configuration that fails to load gives the same listing as a missing one. |
| RepoData.LoadsAreIsolated | src/lib/github.ts:67-87 | Changing one repository's load result changes no other entry and not the length. |
| RepoData.FailedLoadShowsFallbacks | src/lib/github.ts:82-85 | In a batch without the template, a repository whose load fails keeps its place and is displayed exactly as with no configuration. |
| RepoData.ThreeRepoBatchWithOneFailure | src/lib/github.ts:67-92 | Three repositories, the second failing: still three starters, the failing one with fallback description, language and tags. |
| StarterGrid.NarrowIsConjunction | src/components/StarterGrid.tsx:79-121 | Applying the active criteria one filter at a time is a single filter by their conjunction. |
| StarterGrid.ApplyFilters | src/components/StarterGrid.tsx:73-122 | Without a filter state, every starter is shown. Otherwise the result is the filter of the starters by the conjunction of the active criteria: a subsequence holding every occurrence of each starter that meets them all and none of any other. |
| StarterGrid.TagsAreIgnored | src/components/StarterGrid.tsx:24-31 | The `tags` field of the filter state has no effect. |
| StarterGrid.EmptySearchShowsAll | src/components/StarterGrid.tsx:82 | An empty search string does not narrow. |
| StarterGrid.EmptyListsDoNotNarrow | src/components/StarterGrid.tsx:92-113 | Each of the language, category, framework and vertical lists, when empty, narrows exactly as much as when absent, whatever the other criteria are. |
| StarterGrid.NoCriteriaShowsAll | src/components/StarterGrid.tsx:79-121 | A filter state with no search and no selection shows every starter. |
| StarterGrid.MissingValueIsHidden | src/components/StarterGrid.tsx:99-117 | With a category, framework or vertical selection active, a starter missing that value, or having it empty, is never shown. |
| StarterGrid.SearchIsCaseInsensitive | src/components/StarterGrid.tsx:82-89 | Search terms that lower-case alike show the same starters. |
| StarterGrid.GridWithinLibrary | src/components/StarterGrid.tsx:79-121 | Without a tag selection, the grid shows a subsequence of what `filterStarters` keeps for the same state. |
| StarterGrid.VerticalSelectionEmptiesGrid | src/components/StarterGrid.tsx:113-117 | Over transformed starters, any vertical selection empties the grid. The library filter's vertical check keeps them all. |
| StarterGrid.FrameworkFiltersDisagree | src/components/StarterGrid.tsx:106-110 | For every starter without a framework and every non-empty framework selection: the library's filter keeps it, the grid's drops it. |
| StarterGrid.TagSearchDisagrees | src/components/StarterGrid.tsx:82-89 | For every starter and non-empty search term that one of its tags contains but its title, description and name do not: the library's search keeps it, the grid's drops it. |
| StarterGrid.TagSearchExample | src/components/StarterGrid.tsx:82-89 | Example: a starter tagged `websocket`, with no `websocket` in its other fields, is found by the library search for `websocket` and not by the grid's. |

## Left out

- Network I/O. `getApiHeaders` (environment token), `getRepoConfig` and the
  listing fetch are HTTP calls. The per-repository fetch becomes the `fetch`
  parameter of `GetRepoData`; its failure is an absent result. A failed
  listing fetch returns `[]` outright and is not modelled.
- Concurrency: the `Promise.all` fan-out is modelled as a sequential map. The
  loads are independent, so order of completion does not matter.
- Base64 decoding (`atob`) and TOML parsing are foreign calls. They are the
  `decode` and `parse` parameters, which may fail.
- `RepoData.LoadConfig`: the parser's result is cast to the configuration
  type, not validated. A TOML value of another type than declared (a number
  as `title`, a string as `tags`) would reach the display record unconverted
  and can make the filters throw. Configurations whose values are not of the
  declared types are outside the model, and the facts about display records
  assume well-typed configurations.
- Logging (`console.log`/`console.error`) has no effect on results.
- The grid's data fetch, loading and error state, mock starters and all
  rendering are left out. Only the filter effect is modelled.
- The HTTP route, sidebar, search bar and the other presentation components
  are left out, and so is the language-to-icon lookup.
- `Js.Precedes`: the default sort compares UTF-16 code units. The model
  compares characters lexicographically, which agrees for characters in the
  Basic Multilingual Plane.
- `Js.ToLower`: case mapping is ASCII only. JavaScript's `toLowerCase` and
  `toUpperCase` also map non-ASCII letters.
- `Types.Repo`: `topics` is typed as a list but the code defends against it
  being absent (`|| []`). It is modelled as optional.
- `Types.ProcessedStarter`: `tags` is optional in the type, but the transform
  always sets it and both filters dereference it. It is modelled as a list.
- Integer widths of ids and counters are irrelevant here. They are copied and
  never computed with.

=== FILE: filter_options.dfy ===
/**
 The library's option builder (`getFilterOptions` in src/lib/github.ts):
 every distinct non-empty language, category, framework and vertical, and
 every distinct tag, each list sorted as the default `Array.prototype.sort`
 sorts strings. Nothing in the program calls it; the sidebar uses fixed
 option lists instead.
 */
module FilterOptions {
  import opened Js
  import opened Types

  datatype FilterOptions = FilterOptions(
    languages: seq<string>,
    categories: seq<string>,
    frameworks: seq<string>,
    verticals: seq<string>,
    tags: seq<string>)

  /** Each element precedes every later one; in particular no value repeats. */
  predicate StrictlySorted(s: seq<string>)
  {
    forall i, j :: 0 <= i < j < |s| ==> Precedes(s[i], s[j])
  }

  lemma StrictlySortedHasNoDuplicates(s: seq<string>)
    requires StrictlySorted(s)
    ensures forall i, j :: 0 <= i < |s| && 0 <= j < |s| && i != j ==> s[i] != s[j]
  {
    forall i, j | 0 <= i < |s| && 0 <= j < |s| && i != j
      ensures s[i] != s[j]
    {
      if i < j {
        if s[i] == s[j] { PrecedesIrreflexive(s[i]); }
      } else {
        if s[i] == s[j] { PrecedesIrreflexive(s[j]); }
      }
    }
  }

  /** `x` precedes every element of `s`, so it may head it. */
  lemma PrependSorted(x: string, s: seq<string>)
    requires StrictlySorted(s)
    requires forall v :: v in s ==> Precedes(x, v)
    ensures StrictlySorted([x] + s)
  {
    forall i, j | 0 <= i < j < |[x] + s|
      ensures Precedes(([x] + s)[i], ([x] + s)[j])
    {
      if i > 0 {
        assert ([x] + s)[i] == s[i - 1] && ([x] + s)[j] == s[j - 1];
      } else {
        assert ([x] + s)[j] == s[j - 1];
      }
    }
  }

  /** Adding one value to a sorted, duplicate-free list. */
  function Insert(x: string, s: seq<string>): (r: seq<string>)
    requires StrictlySorted(s)
    ensures StrictlySorted(r)
    ensures forall v :: v in r <==> v == x || v in s
    decreases |s|
  {
    if |s| == 0 then [x]
    else if x == s[0] then s
    else if Precedes(x, s[0]) then
      assert forall v :: v in s ==> Precedes(x, v) by {
        forall v | v in s ensures Precedes(x, v) {
          if v != s[0] {
            var k :| 0 <= k < |s| && s[k] == v;
            PrecedesTransitive(x, s[0], v);
          }
        }
      }
      PrependSorted(x, s);
      [x] + s
    else
      var rest := Insert(x, s[1..]);
      assert forall v :: v in rest ==> Precedes(s[0], v) by {
        PrecedesTotal(x, s[0]);
        forall v | v in rest ensures Precedes(s[0], v) {
          if v != x {
            var k :| 0 <= k < |s[1..]| && s[1..][k] == v;
            assert s[k + 1] == v;
          }
        }
      }
      PrependSorted(s[0], rest);
      [s[0]] + rest
  }

  /** `Array.from(new Set(xs)).sort()`: the distinct values of `xs`, sorted. */
  function SortedDistinct(xs: seq<string>): (r: seq<string>)
    ensures StrictlySorted(r)
    ensures forall v :: v in r <==> v in xs
    decreases |xs|
  {
    if |xs| == 0 then []
    else
      var init := xs[..|xs| - 1];
      assert xs == init + [xs[|xs| - 1]];
      Insert(xs[|xs| - 1], SortedDistinct(init))
  }

  /**
   A sorted, duplicate-free list is determined by its elements: the option
   lists do not depend on the order the starters come in.
   */
  lemma {:induction false} SortedListIsCanonical(a: seq<string>, b: seq<string>)
    requires StrictlySorted(a) && StrictlySorted(b)
    requires forall v :: v in a <==> v in b
    ensures a == b
    decreases |a|
  {
    if |a| > 0 {
      assert a[0] in b;
    }
    if |b| > 0 {
      assert b[0] in a;
    }
    if |a| > 0 && |b| > 0 {
      if a[0] != b[0] {
        assert b[0] in a && a[0] in b;
        var i :| 0 <= i < |a| && a[i] == b[0];
        var j :| 0 <= j < |b| && b[j] == a[0];
        assert i > 0 && j > 0;
        PrecedesAsymmetric(a[0], a[i]);
        assert false;
      }
      StrictlySortedHasNoDuplicates(a);
      StrictlySortedHasNoDuplicates(b);
      forall v
        ensures v in a[1..] <==> v in b[1..]
      {
        if v in a[1..] {
          var i :| 1 <= i < |a| && a[i] == v;
          assert v != a[0];
          assert v in b;
          var j :| 0 <= j < |b| && b[j] == v;
          assert j != 0;
        }
        if v in b[1..] {
          var j :| 1 <= j < |b| && b[j] == v;
          assert v != b[0];
          assert v in a;
          var i :| 0 <= i < |a| && a[i] == v;
          assert i != 0;
        }
      }
      SortedListIsCanonical(a[1..], b[1..]);
      assert a == [a[0]] + a[1..] && b == [b[0]] + b[1..];
    }
  }

  /** The truthy values one optional field takes across the starters, in order. */
  function TruthyValues(starters: seq<ProcessedStarter>, field: ProcessedStarter -> Option<string>): (r: seq<string>)
    ensures forall v :: v in r <==> v != "" && exists s :: s in starters && field(s) == Some(v)
    decreases |starters|
  {
    if |starters| == 0 then []
    else
      var rest := TruthyValues(starters[1..], field);
      assert forall s :: s in starters <==> s == starters[0] || s in starters[1..];
      var here := field(starters[0]);
      if here.Some? && here.value != "" then [here.value] + rest else rest
  }

  /** Every tag of every starter, in order. */
  function AllTags(starters: seq<ProcessedStarter>): (r: seq<string>)
    ensures forall v :: v in r <==> exists s :: s in starters && v in s.tags
    decreases |starters|
  {
    if |starters| == 0 then []
    else
      assert forall s :: s in starters <==> s == starters[0] || s in starters[1..];
      starters[0].tags + AllTags(starters[1..])
  }

  /**
   `getFilterOptions`. Each list is strictly sorted; a value is listed iff some
   starter has it as a non-empty language, category, framework or vertical;
   the tag list is the union of all tags, the empty tag included.
   */
  function GetFilterOptions(starters: seq<ProcessedStarter>): (r: FilterOptions)
    ensures StrictlySorted(r.languages) && StrictlySorted(r.categories)
    ensures StrictlySorted(r.frameworks) && StrictlySorted(r.verticals) && StrictlySorted(r.tags)
    ensures forall v :: v in r.languages <==>
      v != "" && exists s :: s in starters && s.language == v
    ensures forall v :: v in r.categories <==>
      v != "" && exists s :: s in starters && s.category == Some(v)
    ensures forall v :: v in r.frameworks <==>
      v != "" && exists s :: s in starters && s.framework == Some(v)
    ensures forall v :: v in r.verticals <==>
      v != "" && exists s :: s in starters && s.vertical == Some(v)
    ensures forall v :: v in r.tags <==>
      exists s :: s in starters && v in s.tags
  {
    var languages := TruthyValues(starters, (s: ProcessedStarter) => Some(s.language));
    assert forall v :: v in languages <==>
      v != "" && exists s :: s in starters && s.language == v by {
      forall v ensures v in languages <==>
        v != "" && exists s :: s in starters && s.language == v
      {
        if v != "" && exists s :: s in starters && s.language == v {
          var s :| s in starters && s.language == v;
          assert ((s: ProcessedStarter) => Some(s.language))(s) == Some(v);
        }
      }
    }
    FilterOptions(
      languages := SortedDistinct(languages),
      categories := SortedDistinct(TruthyValues(starters, (s: ProcessedStarter) => s.category)),
      frameworks := SortedDistinct(TruthyValues(starters, (s: ProcessedStarter) => s.framework)),
      verticals := SortedDistinct(TruthyValues(starters, (s: ProcessedStarter) => s.vertical)),
      tags := SortedDistinct(AllTags(starters)))
  }

  /** The option lists depend only on which starters there are, not on their order or repetition. */
  lemma FilterOptionsIgnoreOrder(a: seq<ProcessedStarter>, b: seq<ProcessedStarter>)
    requires forall s :: s in a <==> s in b
    ensures GetFilterOptions(a) == GetFilterOptions(b)
  {
    var ra := GetFilterOptions(a);
    var rb := GetFilterOptions(b);
    SortedListIsCanonical(ra.languages, rb.languages);
    SortedListIsCanonical(ra.categories, rb.categories);
    SortedListIsCanonical(ra.frameworks, rb.frameworks);
    SortedListIsCanonical(ra.verticals, rb.verticals);
    SortedListIsCanonical(ra.tags, rb.tags);
  }
}

=== FILE: js.dfy ===
/**
 Just enough of JavaScript's value semantics to state the pipeline:
 `undefined`/`null` as an absent value, the truthiness that `||` and `if`
 test, `toLowerCase`/`toUpperCase` on ASCII letters, `String.prototype.includes`,
 and the order the default `Array.prototype.sort` puts strings in.
 */
module Js {

  /** An absent value (`undefined` or `null`) or a present one. */
  datatype Option<+T> = None | Some(value: T)

  /** Optional chaining `o?.f`: absent when `o` is absent. */
  function Then<A, B>(o: Option<A>, f: A -> Option<B>): Option<B>
  {
    match o
    case None => None
    case Some(a) => f(a)
  }

  /** An optional string is truthy when it is present and not empty. */
  predicate Truthy(s: Option<string>)
  {
    s.Some? && s.value != ""
  }

  /** `a || b` on optional strings: an empty `a` falls through like an absent one. */
  function Or(a: Option<string>, b: Option<string>): Option<string>
  {
    if Truthy(a) then a else b
  }

  /** `a || fallback`, where the fallback is a string literal. */
  function OrElse(a: Option<string>, fallback: string): string
  {
    if Truthy(a) then a.value else fallback
  }

  /** `a || b` on optional arrays: any present array, even `[]`, is truthy. */
  function OrList<T>(a: Option<seq<T>>, b: Option<seq<T>>): Option<seq<T>>
  {
    if a.Some? then a else b
  }

  /** `xs?.length` used as a condition: present and non-empty. */
  predicate NonEmptyList<T>(xs: Option<seq<T>>)
  {
    xs.Some? && |xs.value| > 0
  }

  /** `xs?.includes(v)`: false when the array is absent. */
  predicate ListIncludes(xs: Option<seq<string>>, v: string)
  {
    xs.Some? && v in xs.value
  }

  function UpperChar(c: char): char
  {
    if 'a' <= c <= 'z' then (c as int - 32) as char else c
  }

  function LowerChar(c: char): char
  {
    if 'A' <= c <= 'Z' then (c as int + 32) as char else c
  }

  /** `s.toLowerCase()`, on the ASCII letters. */
  function ToLower(s: string): string
  {
    seq(|s|, i requires 0 <= i < |s| => LowerChar(s[i]))
  }

  /** `hay.includes(needle)`: `needle` occurs in `hay` at some offset. */
  predicate Includes(hay: string, needle: string)
  {
    exists i :: 0 <= i <= |hay| && needle <= hay[i..]
  }

  /** The order the default `Array.prototype.sort` gives strings: lexicographic by character. */
  predicate Precedes(a: string, b: string)
    decreases |a|
  {
    if |a| == 0 then |b| > 0
    else |b| > 0 && (a[0] < b[0] || (a[0] == b[0] && Precedes(a[1..], b[1..])))
  }

  lemma {:induction false} PrecedesIrreflexive(a: string)
    ensures !Precedes(a, a)
    decreases |a|
  {
    if |a| > 0 {
      PrecedesIrreflexive(a[1..]);
    }
  }

  lemma {:induction false} PrecedesTransitive(a: string, b: string, c: string)
    requires Precedes(a, b) && Precedes(b, c)
    ensures Precedes(a, c)
    decreases |a|
  {
    if |a| > 0 && a[0] == b[0] && b[0] == c[0] {
      PrecedesTransitive(a[1..], b[1..], c[1..]);
    }
  }

  lemma {:induction false} PrecedesTotal(a: string, b: string)
    requires a != b
    ensures Precedes(a, b) || Precedes(b, a)
    decreases |a|
  {
    if |a| > 0 && |b| > 0 && a[0] == b[0] {
      assert a == [a[0]] + a[1..] && b == [b[0]] + b[1..];
      PrecedesTotal(a[1..], b[1..]);
    }
  }

  lemma {:induction false} PrecedesAsymmetric(a: string, b: string)
    requires Precedes(a, b)
    ensures !Precedes(b, a)
  {
    if Precedes(b, a) {
      PrecedesTransitive(a, b, a);
      PrecedesIrreflexive(a);
    }
  }
}

=== FILE: library_filter.dfy ===
/**
 The library's search and multi-select filter (`filterStarters` in
 src/lib/github.ts). A starter is kept when it passes every active check:
 a lower-cased substring search over title, description, name and tags; an
 exact, case-sensitive language match; category, framework and vertical
 checks that let a starter without the value through; and a case-insensitive
 tag match. Nothing in the program calls it; the page runs the grid's own
 filter instead.
 */
module LibraryFilter {
  import opened Js
  import opened Types
  import opened Sequences

  /** Some field searched by the library filter contains the lower-cased term. */
  predicate SearchHit(s: ProcessedStarter, term: string)
  {
    || Includes(ToLower(s.title), term)
    || Includes(ToLower(s.description), term)
    || Includes(ToLower(s.name), term)
    || exists tag :: tag in s.tags && Includes(ToLower(tag), term)
  }

  /** An optional dimension drops a starter only when it has a value that is not selected. */
  predicate OptionalPasses(selected: Option<seq<string>>, value: Option<string>)
  {
    !(NonEmptyList(selected) && Truthy(value) && value.value !in selected.value)
  }

  /** Some selected tag equals some tag of the starter, ignoring case. */
  predicate TagHit(s: ProcessedStarter, selected: seq<string>)
  {
    exists wanted, tag :: wanted in selected && tag in s.tags && ToLower(tag) == ToLower(wanted)
  }

  /** The checks of the filter callback, each one conjunct. */
  predicate Keeps(f: FilterState, s: ProcessedStarter)
  {
    && (Truthy(f.search) ==> SearchHit(s, ToLower(f.search.value)))
    && (NonEmptyList(f.language) ==> s.language in f.language.value)
    && OptionalPasses(f.category, s.category)
    && OptionalPasses(f.framework, s.framework)
    && OptionalPasses(f.vertical, s.vertical)
    && (NonEmptyList(f.tags) ==> TagHit(s, f.tags.value))
  }

  /** The filter callback `starter => ...` for one filter state. */
  function Callback(f: FilterState): ProcessedStarter -> bool
  {
    s => Keeps(f, s)
  }

  /** No search text and no non-empty selection list. */
  predicate Inactive(f: FilterState)
  {
    && !Truthy(f.search)
    && !NonEmptyList(f.language) && !NonEmptyList(f.category) && !NonEmptyList(f.framework)
    && !NonEmptyList(f.vertical) && !NonEmptyList(f.tags)
  }

  /**
   `filterStarters`: the starters that pass, in their original order; with
   nothing to filter on, all of them.
   */
  function FilterStarters(starters: seq<ProcessedStarter>, f: FilterState): (r: seq<ProcessedStarter>)
    ensures IsSubsequence(r, starters)
    ensures forall s :: multiset(r)[s] == if Keeps(f, s) then multiset(starters)[s] else 0
    ensures Inactive(f) ==> r == starters
  {
    FilterIsSubsequence(starters, Callback(f));
    FilterCounts(starters, Callback(f));
    if Inactive(f) then
      FilterAll(starters, Callback(f));
      Filter(starters, Callback(f))
    else
      Filter(starters, Callback(f))
  }

  /**
   What a kept starter satisfies, check by check, and that a starter passing
   every check is kept.
   */
  lemma FilterStartersMembership(starters: seq<ProcessedStarter>, f: FilterState, s: ProcessedStarter)
    ensures s in FilterStarters(starters, f) <==>
      && s in starters
      && (Truthy(f.search) ==>
            var term := ToLower(f.search.value);
            || Includes(ToLower(s.title), term) || Includes(ToLower(s.description), term)
            || Includes(ToLower(s.name), term)
            || exists tag :: tag in s.tags && Includes(ToLower(tag), term))
      && (NonEmptyList(f.language) ==> s.language in f.language.value)
      && (NonEmptyList(f.category) && Truthy(s.category) ==> s.category.value in f.category.value)
      && (NonEmptyList(f.framework) && Truthy(s.framework) ==> s.framework.value in f.framework.value)
      && (NonEmptyList(f.vertical) && Truthy(s.vertical) ==> s.vertical.value in f.vertical.value)
      && (NonEmptyList(f.tags) ==>
            exists wanted, tag :: wanted in f.tags.value && tag in s.tags && ToLower(tag) == ToLower(wanted))
  {
  }

  /** An empty search string does not narrow: it filters like no search at all. */
  lemma EmptySearchDoesNotNarrow(starters: seq<ProcessedStarter>, f: FilterState)
    ensures FilterStarters(starters, f.(search := Some(""))) == FilterStarters(starters, f.(search := None))
  {
    FilterCongruent(starters, Callback(f.(search := Some(""))), Callback(f.(search := None)));
  }

  /** Search terms that lower-case alike (`PYTHON`, `python`) select the same starters. */
  lemma SearchIsCaseInsensitive(starters: seq<ProcessedStarter>, f: FilterState, a: string, b: string)
    requires ToLower(a) == ToLower(b)
    ensures FilterStarters(starters, f.(search := Some(a))) == FilterStarters(starters, f.(search := Some(b)))
  {
    assert |a| == |ToLower(a)| == |ToLower(b)| == |b|;
    FilterCongruent(starters, Callback(f.(search := Some(a))), Callback(f.(search := Some(b))));
  }

  /** Selected tags that lower-case alike select the same starters. */
  lemma TagFilterIsCaseInsensitive(starters: seq<ProcessedStarter>, f: FilterState, a: seq<string>, b: seq<string>)
    requires |a| == |b|
    requires forall i :: 0 <= i < |a| ==> ToLower(a[i]) == ToLower(b[i])
    ensures FilterStarters(starters, f.(tags := Some(a))) == FilterStarters(starters, f.(tags := Some(b)))
  {
    forall s | s in starters
      ensures Keeps(f.(tags := Some(a)), s) == Keeps(f.(tags := Some(b)), s)
    {
      if |a| > 0 && TagHit(s, a) {
        var wanted, tag :| wanted in a && tag in s.tags && ToLower(tag) == ToLower(wanted);
        var i :| 0 <= i < |a| && a[i] == wanted;
        assert b[i] in b && ToLower(tag) == ToLower(b[i]);
      }
      if |b| > 0 && TagHit(s, b) {
        var wanted, tag :| wanted in b && tag in s.tags && ToLower(tag) == ToLower(wanted);
        var i :| 0 <= i < |b| && b[i] == wanted;
        assert a[i] in a && ToLower(tag) == ToLower(a[i]);
      }
    }
    FilterCongruent(starters, Callback(f.(tags := Some(a))), Callback(f.(tags := Some(b))));
  }

  /**
   A starter with no category, framework or vertical is never dropped for it:
   clearing those selections changes nothing when no starter has those values.
   */
  lemma MissingValuesPass(starters: seq<ProcessedStarter>, f: FilterState)
    requires forall s :: s in starters ==> !Truthy(s.category) && !Truthy(s.framework) && !Truthy(s.vertical)
    ensures FilterStarters(starters, f)
         == FilterStarters(starters, f.(category := None, framework := None, vertical := None))
  {
    FilterCongruent(starters, Callback(f),
                    Callback(f.(category := None, framework := None, vertical := None)));
  }

  /** The search check first, then the others, is the same as all at once. */
  lemma SearchThenRest(starters: seq<ProcessedStarter>, f: FilterState)
    ensures FilterStarters(FilterStarters(starters, FilterState(f.search, None, None, None, None, None)),
                           f.(search := None))
         == FilterStarters(starters, f)
  {
    var onlySearch := FilterState(f.search, None, None, None, None, None);
    var rest := f.(search := None);
    FilterFuse(starters, Callback(onlySearch), Callback(rest), Callback(f));
  }
}

=== FILE: repo_data.dfy ===
/**
 The assembly step of `getRepoData` (src/lib/github.ts): drop the
 `project-template` repository, then load each remaining repository's
 `deepgram.toml` and attach it when it parses. Fetching, base64 decoding and
 TOML parsing are parameters (oracles that may fail); every failure leaves
 the repository as it was listed, exactly like a missing file.
 */
module RepoData {
  import opened Js
  import opened Types
  import opened Sequences
  import Transform

  const TemplateRepo := "project-template"

  /** The outcome of loading one repository's configuration file. */
  datatype ConfigOutcome = Fail | NoConfig | Config(config: TomlConfig)

  /** The hosting API's record for a file's contents (src/types/index.ts GitHubFileContent). */
  datatype FileContent = FileContent(name: string, path: string, content: string, encoding: string)

  /**
   The per-repository body of the listing step. `file` is what the fetch of
   `deepgram.toml` returned (absent for any non-success answer or transport
   error); `decode` stands for `atob` and `parse` for the TOML parser, each
   absent where it throws. Missing content is handed to the parser as the empty string.
   */
  function LoadConfig(file: Option<FileContent>, decode: string -> Option<string>,
                      parse: string -> Option<TomlConfig>): (o: ConfigOutcome)
    ensures o.NoConfig? <==> file.None?
    ensures o.Fail? <==>
      file.Some? &&
      (if file.value.content == "" then parse("").None?
       else decode(file.value.content).None? || parse(decode(file.value.content).value).None?)
    ensures o.Config? ==>
      file.Some? &&
      (if file.value.content == "" then parse("") == Some(o.config)
       else decode(file.value.content).Some? && parse(decode(file.value.content).value) == Some(o.config))
  {
    match file
    case None => NoConfig
    case Some(f) =>
      var text := if f.content != "" then decode(f.content) else Some("");
      match text
      case None => Fail
      case Some(t) =>
        match parse(t)
        case None => Fail
        case Some(c) => Config(c)
  }

  /** `{ ...repo, repo_config: parsed }` on success; the repository unchanged otherwise. */
  function Attach(repo: Repo, outcome: ConfigOutcome): (r: Repo)
    ensures r == repo.(repoConfig := r.repoConfig)
    ensures outcome.Config? ==> r.repoConfig == Some(outcome.config)
    ensures !outcome.Config? ==> r == repo
  {
    match outcome
    case Config(c) => repo.(repoConfig := Some(c))
    case _ => repo
  }

  function IsListed(): Repo -> bool
  {
    (repo: Repo) => repo.name != TemplateRepo
  }

  function Names(repos: seq<Repo>): seq<string>
  {
    seq(|repos|, i requires 0 <= i < |repos| => repos[i].name)
  }

  function Ids(repos: seq<Repo>): seq<int>
  {
    seq(|repos|, i requires 0 <= i < |repos| => repos[i].id)
  }

  /** `.map(repo => ...)`: each repository with its load's outcome attached. */
  function AttachAll(repos: seq<Repo>, load: string -> ConfigOutcome): (r: seq<Repo>)
    ensures |r| == |repos|
    ensures forall i :: 0 <= i < |repos| ==> r[i] == Attach(repos[i], load(repos[i].name))
  {
    seq(|repos|, i requires 0 <= i < |repos| => Attach(repos[i], load(repos[i].name)))
  }

  lemma AttachAllKeepsNamesAndIds(repos: seq<Repo>, load: string -> ConfigOutcome)
    ensures Names(AttachAll(repos, load)) == Names(repos)
    ensures Ids(AttachAll(repos, load)) == Ids(repos)
  {
    var r := AttachAll(repos, load);
    forall i | 0 <= i < |repos|
      ensures r[i].name == repos[i].name && r[i].id == repos[i].id
    {
      var a := Attach(repos[i], load(repos[i].name));
      assert a == repos[i].(repoConfig := a.repoConfig);
    }
  }

  /**
   The listing step after the organization's repositories have been fetched:
   `repositories.filter(...).map(...)` with `load` standing for the
   per-repository configuration load, run in sequence rather than fanned out.
   */
  function AssembleRepos(repos: seq<Repo>, load: string -> ConfigOutcome): (r: seq<Repo>)
    ensures |r| == |repos| - multiset(Names(repos))[TemplateRepo]
    ensures forall x :: x in r ==> x.name != TemplateRepo
    ensures forall repo :: repo in repos && repo.name != TemplateRepo ==> Attach(repo, load(repo.name)) in r
    ensures forall x :: x in r ==> exists repo :: repo in repos && x == Attach(repo, load(repo.name))
    ensures IsSubsequence(Names(r), Names(repos)) && IsSubsequence(Ids(r), Ids(repos))
  {
    AssembleReposFacts(repos, load);
    AttachAll(Filter(repos, IsListed()), load)
  }

  lemma AssembleReposFacts(repos: seq<Repo>, load: string -> ConfigOutcome)
    ensures var r := AttachAll(Filter(repos, IsListed()), load);
      && |r| == |repos| - multiset(Names(repos))[TemplateRepo]
      && (forall x :: x in r ==> x.name != TemplateRepo)
      && (forall repo :: repo in repos && repo.name != TemplateRepo ==> Attach(repo, load(repo.name)) in r)
      && (forall x :: x in r ==> exists repo :: repo in repos && x == Attach(repo, load(repo.name)))
      && IsSubsequence(Names(r), Names(repos)) && IsSubsequence(Ids(r), Ids(repos))
  {
    var kept := Filter(repos, IsListed());
    var r := AttachAll(kept, load);
    ListedCount(repos);
    ListedKeepOrder(repos);
    AttachAllKeepsNamesAndIds(kept, load);
    forall x | x in r ensures x.name != TemplateRepo && exists repo :: repo in repos && x == Attach(repo, load(repo.name))
    {
      var i :| 0 <= i < |r| && r[i] == x;
      assert Names(r)[i] == Names(kept)[i];
      assert kept[i] in kept;
    }
    forall repo | repo in repos && repo.name != TemplateRepo
      ensures Attach(repo, load(repo.name)) in r
    {
      assert IsListed()(repo);
      var i :| 0 <= i < |kept| && kept[i] == repo;
      assert r[i] == Attach(repo, load(repo.name));
    }
  }

  lemma {:induction false} ListedCount(repos: seq<Repo>)
    ensures |Filter(repos, IsListed())| == |repos| - multiset(Names(repos))[TemplateRepo]
    decreases |repos|
  {
    if |repos| > 0 {
      ListedCount(repos[1..]);
      assert Names(repos) == [repos[0].name] + Names(repos[1..]);
    }
  }

  lemma {:induction false} ListedKeepOrder(repos: seq<Repo>)
    ensures IsSubsequence(Names(Filter(repos, IsListed())), Names(repos))
    ensures IsSubsequence(Ids(Filter(repos, IsListed())), Ids(repos))
    decreases |repos|
  {
    if |repos| > 0 {
      ListedKeepOrder(repos[1..]);
      var rest := Filter(repos[1..], IsListed());
      assert Names(repos)[1..] == Names(repos[1..]);
      assert Ids(repos)[1..] == Ids(repos[1..]);
      if IsListed()(repos[0]) {
        assert Filter(repos, IsListed()) == [repos[0]] + rest;
        assert Names([repos[0]] + rest)[1..] == Names(rest);
        assert Ids([repos[0]] + rest)[1..] == Ids(rest);
      } else {
        var n := Names(rest);
        var d := Ids(rest);
        if |n| > 0 {
          assert IsSubsequence(n, Names(repos)[1..]);
        }
        if |d| > 0 {
          assert IsSubsequence(d, Ids(repos)[1..]);
        }
      }
    }
  }

  /** `getRepoData` after the listing fetch, with the per-repository load spelled out. */
  function GetRepoData(repos: seq<Repo>, fetch: string -> Option<FileContent>,
                       decode: string -> Option<string>, parse: string -> Option<TomlConfig>): (r: seq<Repo>)
    ensures |r| == |repos| - multiset(Names(repos))[TemplateRepo]
  {
    AssembleRepos(repos, name => LoadConfig(fetch(name), decode, parse))
  }

  /** The load oracle with every failure turned into "no configuration file". */
  function FailureAsMissing(load: string -> ConfigOutcome): string -> ConfigOutcome
  {
    name => if load(name).Fail? then NoConfig else load(name)
  }

  /**
   A configuration that fails to load or parse is indistinguishable from a
   missing one: the listing is the same either way.
   */
  lemma FailureIsMissingConfig(repos: seq<Repo>, load: string -> ConfigOutcome)
    ensures AssembleRepos(repos, load) == AssembleRepos(repos, FailureAsMissing(load))
  {
    var kept := Filter(repos, IsListed());
    assert forall i :: 0 <= i < |kept| ==>
      Attach(kept[i], load(kept[i].name)) == Attach(kept[i], FailureAsMissing(load)(kept[i].name));
    assert AttachAll(kept, load) == AttachAll(kept, FailureAsMissing(load));
  }

  /**
   Failure isolation: changing what one repository's load yields changes no
   other repository's entry, nor the length of the listing.
   */
  lemma LoadsAreIsolated(repos: seq<Repo>, load1: string -> ConfigOutcome,
                         load2: string -> ConfigOutcome, name: string)
    requires forall n :: n != name ==> load1(n) == load2(n)
    ensures |AssembleRepos(repos, load1)| == |AssembleRepos(repos, load2)|
    ensures forall i :: 0 <= i < |AssembleRepos(repos, load1)| && AssembleRepos(repos, load1)[i].name != name
              ==> AssembleRepos(repos, load1)[i] == AssembleRepos(repos, load2)[i]
  {
  }

  /**
   In a batch without the template, every repository keeps its place, and one
   whose load fails is displayed exactly as if it had no configuration file.
   */
  lemma FailedLoadShowsFallbacks(repos: seq<Repo>, load: string -> ConfigOutcome, i: int)
    requires forall repo :: repo in repos ==> repo.name != TemplateRepo
    requires 0 <= i < |repos| && load(repos[i].name).Fail?
    ensures |Transform.TransformToProcessedStarters(AssembleRepos(repos, load))| == |repos|
    ensures Transform.TransformToProcessedStarters(AssembleRepos(repos, load))[i]
         == Transform.ToStarter(repos[i])
  {
    FilterAll(repos, IsListed());
  }

  function ScenarioRepo(id: int, name: string): Repo
  {
    Repo(id, name, "deepgram-starters/" + name, None, "https://github.com/deepgram-starters/" + name,
         "", None, None, 0, 0, "", "", "", Owner("deepgram-starters", "", ""), None)
  }

  /** Three repositories, the second one's configuration fails to decode or parse: still three starters. */
  lemma ThreeRepoBatchWithOneFailure(c: TomlConfig)
    ensures var repos := [ScenarioRepo(1, "a"), ScenarioRepo(2, "b"), ScenarioRepo(3, "c")];
      var load := (n: string) => if n == "b" then Fail else Config(c);
      var starters := Transform.TransformToProcessedStarters(AssembleRepos(repos, load));
      |starters| == 3 && starters[1].description == "No description available"
      && starters[1].language == "Unknown" && starters[1].tags == []
  {
    var repos := [ScenarioRepo(1, "a"), ScenarioRepo(2, "b"), ScenarioRepo(3, "c")];
    var load := (n: string) => if n == "b" then Fail else Config(c);
    assert forall repo :: repo in repos ==> repo.name != TemplateRepo;
    FailedLoadShowsFallbacks(repos, load, 1);
  }
}

=== FILE: sequences.dfy ===
/**
 `Array.prototype.filter` on sequences, and the facts about it that the
 filters of the starter gallery are built from.
 */
module Sequences {

  /** `a` is `b` with some elements left out, the rest in their order. */
  predicate IsSubsequence<T(==)>(a: seq<T>, b: seq<T>)
    decreases |b|
  {
    |a| == 0 ||
    (|b| > 0 && ((a[0] == b[0] && IsSubsequence(a[1..], b[1..])) || IsSubsequence(a, b[1..])))
  }

  /** `s.filter(p)`: the elements of `s` that satisfy `p`, in order. */
  function Filter<T(==,!new)>(s: seq<T>, p: T -> bool): (r: seq<T>)
    ensures |r| <= |s|
    ensures forall x :: x in r <==> x in s && p(x)
  {
    if |s| == 0 then []
    else if p(s[0]) then [s[0]] + Filter(s[1..], p)
    else Filter(s[1..], p)
  }

  /** The filter keeps every occurrence of a value that passes and none of one that fails. */
  lemma {:induction false} FilterCounts<T(!new)>(s: seq<T>, p: T -> bool)
    ensures forall x :: multiset(Filter(s, p))[x] == if p(x) then multiset(s)[x] else 0
    decreases |s|
  {
    if |s| > 0 {
      FilterCounts(s[1..], p);
      assert s == [s[0]] + s[1..];
    }
  }

  lemma {:induction false} SubsequenceReflexive<T>(s: seq<T>)
    ensures IsSubsequence(s, s)
    decreases |s|
  {
    if |s| > 0 {
      SubsequenceReflexive(s[1..]);
    }
  }

  /** A filter keeps the survivors in their original order. */
  lemma {:induction false} FilterIsSubsequence<T(!new)>(s: seq<T>, p: T -> bool)
    ensures IsSubsequence(Filter(s, p), s)
    decreases |s|
  {
    if |s| > 0 {
      FilterIsSubsequence(s[1..], p);
      var rest := Filter(s[1..], p);
      if p(s[0]) {
        assert Filter(s, p) == [s[0]] + rest;
        assert ([s[0]] + rest)[1..] == rest;
      }
    }
  }

  /** A filter whose predicate holds everywhere on `s` returns `s`. */
  lemma {:induction false} FilterAll<T(!new)>(s: seq<T>, p: T -> bool)
    requires forall x :: x in s ==> p(x)
    ensures Filter(s, p) == s
    decreases |s|
  {
    if |s| > 0 {
      FilterAll(s[1..], p);
      assert s == [s[0]] + s[1..];
    }
  }

  /** A filter whose predicate fails everywhere on `s` returns nothing. */
  lemma {:induction false} FilterNone<T(!new)>(s: seq<T>, p: T -> bool)
    requires forall x :: x in s ==> !p(x)
    ensures Filter(s, p) == []
    decreases |s|
  {
    if |s| > 0 {
      assert s[0] in s;
      FilterNone(s[1..], p);
    }
  }

  /** Only the predicate's values on `s` matter. */
  lemma {:induction false} FilterCongruent<T(!new)>(s: seq<T>, p: T -> bool, q: T -> bool)
    requires forall x :: x in s ==> p(x) == q(x)
    ensures Filter(s, p) == Filter(s, q)
    decreases |s|
  {
    if |s| > 0 {
      FilterCongruent(s[1..], p, q);
    }
  }

  /** Filtering by `p` and then by `q` is filtering once by their conjunction `both`. */
  lemma {:induction false} FilterFuse<T(!new)>(s: seq<T>, p: T -> bool, q: T -> bool, both: T -> bool)
    requires forall x :: x in s ==> both(x) == (p(x) && q(x))
    ensures Filter(Filter(s, p), q) == Filter(s, both)
    decreases |s|
  {
    if |s| > 0 {
      FilterFuse(s[1..], p, q, both);
      var rest := Filter(s[1..], p);
      if p(s[0]) {
        assert Filter(s, p) == [s[0]] + rest;
        assert ([s[0]] + rest)[1..] == rest;
      }
    }
  }

  /** A weaker predicate keeps everything a stronger one keeps, in the same order. */
  lemma {:induction false} FilterMonotone<T(!new)>(s: seq<T>, p: T -> bool, q: T -> bool)
    requires forall x :: x in s && p(x) ==> q(x)
    ensures IsSubsequence(Filter(s, p), Filter(s, q))
    decreases |s|
  {
    if |s| > 0 {
      FilterMonotone(s[1..], p, q);
      var rp := Filter(s[1..], p);
      var rq := Filter(s[1..], q);
      if p(s[0]) {
        assert Filter(s, p) == [s[0]] + rp;
        assert Filter(s, q) == [s[0]] + rq;
        assert ([s[0]] + rp)[1..] == rp;
        assert ([s[0]] + rq)[1..] == rq;
      } else if q(s[0]) {
        assert Filter(s, q) == [s[0]] + rq;
        assert ([s[0]] + rq)[1..] == rq;
        if |rp| > 0 {
          assert IsSubsequence(rp, ([s[0]] + rq)[1..]);
        }
      }
    }
  }

  /**
   One step of a chain of filters: applying `stage` after the filter by `acc`
   when `active` (and skipping it otherwise) is the filter by `next`.
   */
  lemma FilterStep<T(!new)>(s: seq<T>, acc: T -> bool, stage: T -> bool, next: T -> bool, active: bool)
    requires forall x :: x in s ==> next(x) == (acc(x) && (active ==> stage(x)))
    ensures (if active then Filter(Filter(s, acc), stage) else Filter(s, acc)) == Filter(s, next)
  {
    if active {
      FilterFuse(s, acc, stage, next);
    } else {
      FilterCongruent(s, acc, next);
    }
  }
}

=== FILE: starter_grid.dfy ===
/**
 The filter the gallery page applies (the filter effect of
 src/components/StarterGrid.tsx), as a pure function of the loaded starters
 and the optional filter state. It narrows the list one active criterion at a
 time. Unlike the library's `filterStarters` it does not search tags, has no
 tag filter, and drops a starter that lacks the category, framework or
 vertical being filtered on.
 */
module StarterGrid {
  import opened Js
  import opened Types
  import opened Sequences
  import LibraryFilter
  import Transform

  /** The search of the page: title, description and name only. */
  predicate SearchHit(s: ProcessedStarter, term: string)
  {
    Includes(ToLower(s.title), term) || Includes(ToLower(s.description), term) || Includes(ToLower(s.name), term)
  }

  /** `starter.x && filters.x?.includes(starter.x)`. */
  predicate PresentAndSelected(selected: Option<seq<string>>, value: Option<string>)
  {
    Truthy(value) && ListIncludes(selected, value.value)
  }

  function SearchStage(term: string): ProcessedStarter -> bool
  {
    s => SearchHit(s, term)
  }

  function LanguageStage(selected: Option<seq<string>>): ProcessedStarter -> bool
  {
    (s: ProcessedStarter) => ListIncludes(selected, s.language)
  }

  function CategoryStage(selected: Option<seq<string>>): ProcessedStarter -> bool
  {
    (s: ProcessedStarter) => PresentAndSelected(selected, s.category)
  }

  function FrameworkStage(selected: Option<seq<string>>): ProcessedStarter -> bool
  {
    (s: ProcessedStarter) => PresentAndSelected(selected, s.framework)
  }

  function VerticalStage(selected: Option<seq<string>>): ProcessedStarter -> bool
  {
    (s: ProcessedStarter) => PresentAndSelected(selected, s.vertical)
  }

  /** The effect body for a defined filter state: one `filter` per active criterion, in order. */
  function Narrow(starters: seq<ProcessedStarter>, f: FilterState): seq<ProcessedStarter>
  {
    var afterSearch :=
      if Truthy(f.search) then Filter(starters, SearchStage(ToLower(f.search.value))) else starters;
    var afterLanguage :=
      if NonEmptyList(f.language) then Filter(afterSearch, LanguageStage(f.language)) else afterSearch;
    var afterCategory :=
      if NonEmptyList(f.category) then Filter(afterLanguage, CategoryStage(f.category)) else afterLanguage;
    var afterFramework :=
      if NonEmptyList(f.framework) then Filter(afterCategory, FrameworkStage(f.framework)) else afterCategory;
    if NonEmptyList(f.vertical) then Filter(afterFramework, VerticalStage(f.vertical)) else afterFramework
  }

  /** The criteria a starter must meet, each active one a conjunct. */
  predicate Shows(f: FilterState, s: ProcessedStarter)
  {
    && (Truthy(f.search) ==> SearchHit(s, ToLower(f.search.value)))
    && (NonEmptyList(f.language) ==> s.language in f.language.value)
    && (NonEmptyList(f.category) ==> PresentAndSelected(f.category, s.category))
    && (NonEmptyList(f.framework) ==> PresentAndSelected(f.framework, s.framework))
    && (NonEmptyList(f.vertical) ==> PresentAndSelected(f.vertical, s.vertical))
  }

  function ShowsFn(f: FilterState): ProcessedStarter -> bool
  {
    s => Shows(f, s)
  }

  /**
   Narrowing criterion by criterion is one filter by their conjunction: the
   order the effect applies them in does not matter.
   */
  lemma {:induction false} NarrowIsConjunction(starters: seq<ProcessedStarter>, f: FilterState)
    ensures Narrow(starters, f) == Filter(starters, ShowsFn(f))
  {
    var upToSearch := (s: ProcessedStarter) => Truthy(f.search) ==> SearchHit(s, ToLower(f.search.value));
    var upToLanguage := (s: ProcessedStarter) => upToSearch(s) && (NonEmptyList(f.language) ==> s.language in f.language.value);
    var upToCategory := (s: ProcessedStarter) => upToLanguage(s) && (NonEmptyList(f.category) ==> PresentAndSelected(f.category, s.category));
    var upToFramework := (s: ProcessedStarter) => upToCategory(s) && (NonEmptyList(f.framework) ==> PresentAndSelected(f.framework, s.framework));

    var afterSearch :=
      if Truthy(f.search) then Filter(starters, SearchStage(ToLower(f.search.value))) else starters;
    if Truthy(f.search) {
      FilterCongruent(starters, SearchStage(ToLower(f.search.value)), upToSearch);
    } else {
      FilterAll(starters, upToSearch);
    }
    assert afterSearch == Filter(starters, upToSearch);

    var afterLanguage :=
      if NonEmptyList(f.language) then Filter(afterSearch, LanguageStage(f.language)) else afterSearch;
    FilterStep(starters, upToSearch, LanguageStage(f.language), upToLanguage, NonEmptyList(f.language));
    assert afterLanguage == Filter(starters, upToLanguage);

    var afterCategory :=
      if NonEmptyList(f.category) then Filter(afterLanguage, CategoryStage(f.category)) else afterLanguage;
    FilterStep(starters, upToLanguage, CategoryStage(f.category), upToCategory, NonEmptyList(f.category));
    assert afterCategory == Filter(starters, upToCategory);

    var afterFramework :=
      if NonEmptyList(f.framework) then Filter(afterCategory, FrameworkStage(f.framework)) else afterCategory;
    FilterStep(starters, upToCategory, FrameworkStage(f.framework), upToFramework, NonEmptyList(f.framework));
    assert afterFramework == Filter(starters, upToFramework);

    FilterStep(starters, upToFramework, VerticalStage(f.vertical), ShowsFn(f), NonEmptyList(f.vertical));
  }

  /**
   The starters the grid shows: all of them while the page passes no filter
   state; otherwise exactly those meeting every active criterion, in order.
   */
  function ApplyFilters(starters: seq<ProcessedStarter>, filters: Option<FilterState>): (r: seq<ProcessedStarter>)
    ensures filters.None? ==> r == starters
    ensures IsSubsequence(r, starters)
    ensures filters.Some? ==> forall s :: s in r <==> s in starters && Shows(filters.value, s)
    ensures filters.Some? ==> forall s :: multiset(r)[s] == if Shows(filters.value, s) then multiset(starters)[s] else 0
    ensures filters.Some? ==> r == Filter(starters, ShowsFn(filters.value))
  {
    if filters.None? then
      SubsequenceReflexive(starters);
      starters
    else
      NarrowIsConjunction(starters, filters.value);
      FilterIsSubsequence(starters, ShowsFn(filters.value));
      FilterCounts(starters, ShowsFn(filters.value));
      Narrow(starters, filters.value)
  }

  /** The `tags` field of the filter state has no effect on what is shown. */
  lemma TagsAreIgnored(starters: seq<ProcessedStarter>, f: FilterState, tags: Option<seq<string>>)
    ensures ApplyFilters(starters, Some(f)) == ApplyFilters(starters, Some(f.(tags := tags)))
  {
  }

  /** An empty search string does not narrow. */
  lemma EmptySearchShowsAll(starters: seq<ProcessedStarter>, f: FilterState)
    ensures ApplyFilters(starters, Some(f.(search := Some("")))) == ApplyFilters(starters, Some(f.(search := None)))
  {
  }

  /**
   Each empty selection list narrows exactly as much as an absent one, whatever
   the other criteria are.
   */
  lemma EmptyListsDoNotNarrow(starters: seq<ProcessedStarter>, f: FilterState)
    ensures ApplyFilters(starters, Some(f.(language := Some([])))) == ApplyFilters(starters, Some(f.(language := None)))
    ensures ApplyFilters(starters, Some(f.(category := Some([])))) == ApplyFilters(starters, Some(f.(category := None)))
    ensures ApplyFilters(starters, Some(f.(framework := Some([])))) == ApplyFilters(starters, Some(f.(framework := None)))
    ensures ApplyFilters(starters, Some(f.(vertical := Some([])))) == ApplyFilters(starters, Some(f.(vertical := None)))
  {
    SameCriteriaSameResult(starters, f.(language := Some([])), f.(language := None));
    SameCriteriaSameResult(starters, f.(category := Some([])), f.(category := None));
    SameCriteriaSameResult(starters, f.(framework := Some([])), f.(framework := None));
    SameCriteriaSameResult(starters, f.(vertical := Some([])), f.(vertical := None));
  }

  /** Filter states that admit the same starters show the same list. */
  lemma SameCriteriaSameResult(starters: seq<ProcessedStarter>, f: FilterState, g: FilterState)
    requires forall s :: Shows(f, s) == Shows(g, s)
    ensures ApplyFilters(starters, Some(f)) == ApplyFilters(starters, Some(g))
  {
    FilterCongruent(starters, ShowsFn(f), ShowsFn(g));
  }

  /** With nothing selected and no search, a defined filter state shows every starter. */
  lemma NoCriteriaShowsAll(starters: seq<ProcessedStarter>, f: FilterState)
    requires !Truthy(f.search) && !NonEmptyList(f.language) && !NonEmptyList(f.category)
    requires !NonEmptyList(f.framework) && !NonEmptyList(f.vertical)
    ensures ApplyFilters(starters, Some(f)) == starters
  {
  }

  /**
   While a category, framework or vertical selection is active, a starter
   without that value (absent or empty) is never shown.
   */
  lemma MissingValueIsHidden(starters: seq<ProcessedStarter>, f: FilterState, s: ProcessedStarter)
    ensures NonEmptyList(f.category) && !Truthy(s.category) ==> s !in ApplyFilters(starters, Some(f))
    ensures NonEmptyList(f.framework) && !Truthy(s.framework) ==> s !in ApplyFilters(starters, Some(f))
    ensures NonEmptyList(f.vertical) && !Truthy(s.vertical) ==> s !in ApplyFilters(starters, Some(f))
  {
  }

  /** Search terms that lower-case alike show the same starters. */
  lemma SearchIsCaseInsensitive(starters: seq<ProcessedStarter>, f: FilterState, a: string, b: string)
    requires ToLower(a) == ToLower(b)
    ensures ApplyFilters(starters, Some(f.(search := Some(a)))) == ApplyFilters(starters, Some(f.(search := Some(b))))
  {
    assert |a| == |ToLower(a)| == |ToLower(b)| == |b|;
    FilterCongruent(starters, ShowsFn(f.(search := Some(a))), ShowsFn(f.(search := Some(b))));
  }

  /**
   Without a tag selection, the grid shows a subsequence of what the library
   filter keeps: its search covers fewer fields and its optional dimensions
   let fewer starters through.
   */
  lemma GridWithinLibrary(starters: seq<ProcessedStarter>, f: FilterState)
    requires !NonEmptyList(f.tags)
    ensures IsSubsequence(ApplyFilters(starters, Some(f)), LibraryFilter.FilterStarters(starters, f))
  {
    NarrowIsConjunction(starters, f);
    FilterMonotone(starters, ShowsFn(f), LibraryFilter.Callback(f));
  }

  /**
   Every starter the transform produces has no vertical, so any vertical
   selection empties the grid, while the library filter lets all of them through.
   */
  lemma VerticalSelectionEmptiesGrid(repos: seq<Repo>, f: FilterState)
    requires NonEmptyList(f.vertical)
    ensures ApplyFilters(Transform.TransformToProcessedStarters(repos), Some(f)) == []
    ensures LibraryFilter.FilterStarters(Transform.TransformToProcessedStarters(repos),
                                         FilterState(None, None, None, None, f.vertical, None))
         == Transform.TransformToProcessedStarters(repos)
  {
    var starters := Transform.TransformToProcessedStarters(repos);
    assert forall x :: x in starters ==> x.vertical.None?;
    NarrowIsConjunction(starters, f);
    FilterNone(starters, ShowsFn(f));
    var g := FilterState(None, None, None, None, f.vertical, None);
    FilterAll(starters, LibraryFilter.Callback(g));
  }

  /** A needle holding a character the haystack lacks is not a substring of it. */
  lemma AbsentCharIsNotIncluded(hay: string, needle: string, c: char)
    requires c in needle && c !in hay
    ensures !Includes(hay, needle)
  {
  }

  /** A lower-case letter absent from `s` in both cases is absent from `ToLower(s)`. */
  lemma AbsentFromLower(s: string, c: char)
    requires 'a' <= c <= 'z' && c !in s && UpperChar(c) !in s
    ensures c !in ToLower(s)
  {
    forall i | 0 <= i < |s| ensures ToLower(s)[i] != c {
      assert s[i] != c && s[i] != UpperChar(c);
    }
  }

  lemma NoLetterW(s: string)
    requires 'w' !in s && 'W' !in s
    ensures !Includes(ToLower(s), "websocket")
  {
    AbsentFromLower(s, 'w');
    AbsentCharIsNotIncluded(ToLower(s), "websocket", 'w');
  }

  lemma WebsocketIsLower()
    ensures ToLower("websocket") == "websocket"
  {
  }

  /** The library search finds "websocket" through the tag. */
  lemma TagMatchesWebsocket()
    ensures LibraryFilter.SearchHit(ExampleStarter("Demo", Some("Express"), ["websocket"]), "websocket")
  {
    WebsocketIsLower();
    assert "websocket" <= ToLower("websocket")[0..];
  }

  /** No field the grid searches contains "websocket". */
  lemma GridFieldsMissWebsocket()
    ensures !SearchHit(ExampleStarter("Demo", Some("Express"), ["websocket"]), "websocket")
  {
    NoLetterW("Demo");
    NoLetterW("Live transcription demo");
    NoLetterW("node-live-transcription");
  }

  lemma LibraryKeepsOne(s: ProcessedStarter, f: FilterState)
    requires LibraryFilter.Keeps(f, s)
    ensures LibraryFilter.FilterStarters([s], f) == [s]
  {
    LibraryFilter.FilterStartersMembership([s], f, s);
  }

  lemma GridDropsOne(s: ProcessedStarter, f: FilterState)
    requires !Shows(f, s)
    ensures ApplyFilters([s], Some(f)) == []
  {
  }

  function ExampleStarter(title: string, framework: Option<string>, tags: seq<string>): ProcessedStarter
  {
    ProcessedStarter(
      id := 7, name := "node-live-transcription", title := title,
      description := "Live transcription demo", language := "JavaScript",
      framework := framework, category := None, vertical := None, tags := tags,
      links := StarterLinks("https://github.com/deepgram-starters/node-live-transcription", None, None, None),
      stats := Stats(0, 0, ""), deployment := None, config := None)
  }

  /**
   A starter without a framework survives the library's framework filter but
   not the grid's, whatever framework is selected.
   */
  lemma FrameworkFiltersDisagree(s: ProcessedStarter, selected: seq<string>)
    requires |selected| > 0 && !Truthy(s.framework)
    ensures var f := FilterState(None, None, None, Some(selected), None, None);
      LibraryFilter.FilterStarters([s], f) == [s] && ApplyFilters([s], Some(f)) == []
  {
    var f := FilterState(None, None, None, Some(selected), None, None);
    LibraryKeepsOne(s, f);
    GridDropsOne(s, f);
  }

  /**
   A starter whose title, description and name miss the search term but one of
   whose tags contains it survives the library's search but not the grid's.
   */
  lemma TagSearchDisagrees(s: ProcessedStarter, term: string)
    requires term != ""
    requires exists tag :: tag in s.tags && Includes(ToLower(tag), ToLower(term))
    requires !Includes(ToLower(s.title), ToLower(term)) && !Includes(ToLower(s.description), ToLower(term))
    requires !Includes(ToLower(s.name), ToLower(term))
    ensures var f := FilterState(Some(term), None, None, None, None, None);
      LibraryFilter.FilterStarters([s], f) == [s] && ApplyFilters([s], Some(f)) == []
  {
    var f := FilterState(Some(term), None, None, None, None, None);
    LibraryKeepsOne(s, f);
    GridDropsOne(s, f);
  }

  /** Example: the tag `websocket` is found by the library search only. */
  lemma TagSearchExample()
    ensures var s := ExampleStarter("Demo", Some("Express"), ["websocket"]);
      var f := FilterState(Some("websocket"), None, None, None, None, None);
      LibraryFilter.FilterStarters([s], f) == [s] && ApplyFilters([s], Some(f)) == []
  {
    var s := ExampleStarter("Demo", Some("Express"), ["websocket"]);
    WebsocketIsLower();
    TagMatchesWebsocket();
    GridFieldsMissWebsocket();
    assert s.tags[0] in s.tags;
    TagSearchDisagrees(s, "websocket");
  }
}

=== FILE: transform.dfy ===
/**
 The merge of a repository's raw listing with its optional configuration file
 into a display record (`transformToProcessedStarters` and `formatRepoName`
 in src/lib/github.ts). Every overlapping field takes the configuration's
 value, then the repository's, then a fixed fallback; empty strings fall
 through like absent ones, empty lists do not.
 */
module Transform {
  import opened Js
  import opened Types

  const NoDescription := "No description available"
  const UnknownLanguage := "Unknown"

  // ---------------------------------------------------------------------------
  // formatRepoName: split on '-', capitalize each piece, join with ' '
  // ---------------------------------------------------------------------------

  /** `s.split(sep)`: the pieces between separators, at least one. */
  function Split(s: string, sep: char): (parts: seq<string>)
    ensures |parts| >= 1
    decreases |s|
  {
    if |s| == 0 then [""]
    else
      var rest := Split(s[1..], sep);
      if s[0] == sep then [""] + rest
      else [[s[0]] + rest[0]] + rest[1..]
  }

  /** `parts.join(sep)`. */
  function Join(parts: seq<string>, sep: char): string
    decreases |parts|
  {
    if |parts| == 0 then ""
    else if |parts| == 1 then parts[0]
    else parts[0] + [sep] + Join(parts[1..], sep)
  }

  /** `word.charAt(0).toUpperCase() + word.slice(1)`. */
  function Capitalize(word: string): string
  {
    if |word| == 0 then "" else [UpperChar(word[0])] + word[1..]
  }

  function CapitalizeAll(words: seq<string>): seq<string>
  {
    seq(|words|, i requires 0 <= i < |words| => Capitalize(words[i]))
  }

  /**
   The title derived from a repository slug: every '-' becomes a space and the
   first character of every hyphen-separated piece is upper-cased.
   */
  function FormatRepoName(name: string): (title: string)
    ensures |title| == |name|
    ensures forall i :: 0 <= i < |name| ==> title[i] == TitledChar(name, i, true)
  {
    FormatRepoNameIsCharwise(name);
    Join(CapitalizeAll(Split(name, '-')), ' ')
  }

  /**
   A one-pass reading of the same title: walk the slug, turning '-' into a
   space and upper-casing a character exactly when it starts a piece.
   */
  function Titled(s: string, atStart: bool): string
    decreases |s|
  {
    if |s| == 0 then ""
    else if s[0] == '-' then [' '] + Titled(s[1..], true)
    else [if atStart then UpperChar(s[0]) else s[0]] + Titled(s[1..], false)
  }

  /**
   What `Titled(s, atStart)` puts at position `i`, read off the slug alone: a
   space for '-', the upper-cased character at the start of a piece, the
   character itself otherwise. `FormatRepoName` starts with `atStart` true.
   */
  function TitledChar(s: string, i: int, atStart: bool): char
    requires 0 <= i < |s|
  {
    if s[i] == '-' then ' '
    else if (i == 0 && atStart) || (i > 0 && s[i - 1] == '-') then UpperChar(s[i])
    else s[i]
  }

  lemma {:induction false} TitledIsCharwise(s: string, atStart: bool)
    ensures |Titled(s, atStart)| == |s|
    ensures forall i :: 0 <= i < |s| ==> Titled(s, atStart)[i] == TitledChar(s, i, atStart)
    decreases |s|
  {
    if |s| > 0 {
      var rest := s[1..];
      var b := s[0] == '-';
      TitledIsCharwise(rest, b);
      var t := Titled(s, atStart);
      var tr := Titled(rest, b);
      assert t == [t[0]] + tr;
      forall i | 0 <= i < |s|
        ensures t[i] == TitledChar(s, i, atStart)
      {
        if i > 0 {
          assert t[i] == tr[i - 1];
          assert rest[i - 1] == s[i];
          if i > 1 {
            assert rest[i - 2] == s[i - 1];
          }
        }
      }
    }
  }

  lemma JoinFirstChar(x: char, a: string, ps: seq<string>, sep: char)
    ensures Join([[x] + a] + ps, sep) == [x] + Join([a] + ps, sep)
  {
    if |ps| > 0 {
      assert ([[x] + a] + ps)[1..] == ps;
      assert ([a] + ps)[1..] == ps;
    }
  }

  lemma JoinEmptyFirst(ps: seq<string>, sep: char)
    requires |ps| >= 1
    ensures Join([""] + ps, sep) == [sep] + Join(ps, sep)
  {
    assert ([""] + ps)[1..] == ps;
  }

  /**
   The split/capitalize/join pipeline equals the one-pass reading, both when
   the first piece is capitalized and when it is left as it is.
   */
  lemma {:induction false} SplitCapitalizeJoin(s: string)
    ensures Join(CapitalizeAll(Split(s, '-')), ' ') == Titled(s, true)
    ensures Join([Split(s, '-')[0]] + CapitalizeAll(Split(s, '-')[1..]), ' ') == Titled(s, false)
    decreases |s|
  {
    if |s| > 0 {
      var rest := s[1..];
      var p := Split(rest, '-');
      SplitCapitalizeJoin(rest);
      if s[0] == '-' {
        assert Split(s, '-') == [""] + p;
        assert CapitalizeAll([""] + p) == [""] + CapitalizeAll(p);
        assert ([""] + p)[1..] == p;
        JoinEmptyFirst(CapitalizeAll(p), ' ');
      } else {
        var r0 := p[0];
        var rs := p[1..];
        assert Split(s, '-') == [[s[0]] + r0] + rs;
        assert CapitalizeAll([[s[0]] + r0] + rs) == [[UpperChar(s[0])] + r0] + CapitalizeAll(rs);
        assert ([[s[0]] + r0] + rs)[1..] == rs;
        assert [p[0]] + CapitalizeAll(p[1..]) == [r0] + CapitalizeAll(rs);
        JoinFirstChar(UpperChar(s[0]), r0, CapitalizeAll(rs), ' ');
        JoinFirstChar(s[0], r0, CapitalizeAll(rs), ' ');
      }
    }
  }

  lemma FormatRepoNameIsCharwise(name: string)
    ensures |Join(CapitalizeAll(Split(name, '-')), ' ')| == |name|
    ensures forall i :: 0 <= i < |name| ==>
      Join(CapitalizeAll(Split(name, '-')), ' ')[i] == TitledChar(name, i, true)
  {
    SplitCapitalizeJoin(name);
    TitledIsCharwise(name, true);
  }

  /** Splitting on a separator and joining with it again gives the slug back. */
  lemma {:induction false} SplitJoinRoundTrip(s: string, sep: char)
    ensures Join(Split(s, sep), sep) == s
    ensures forall k :: 0 <= k < |Split(s, sep)| ==> sep !in Split(s, sep)[k]
    decreases |s|
  {
    if |s| > 0 {
      var p := Split(s[1..], sep);
      SplitJoinRoundTrip(s[1..], sep);
      if s[0] == sep {
        JoinEmptyFirst(p, sep);
        assert ([""] + p)[1..] == p;
      } else {
        assert p == [p[0]] + p[1..];
        JoinFirstChar(s[0], p[0], p[1..], sep);
        assert s == [s[0]] + s[1..];
        assert forall k :: 1 <= k < |Split(s, sep)| ==> Split(s, sep)[k] == p[k];
      }
    }
  }

  lemma {:induction false} SplitFirstWord(w: string, rest: string, sep: char)
    requires sep !in w
    ensures Split(w + [sep] + rest, sep) == [w] + Split(rest, sep)
    decreases |w|
  {
    if |w| == 0 {
      assert ([sep] + rest)[1..] == rest;
    } else {
      assert (w + [sep] + rest)[1..] == w[1..] + [sep] + rest;
      SplitFirstWord(w[1..], rest, sep);
      assert [w[0]] + w[1..] == w;
    }
  }

  lemma {:induction false} SplitOneWord(w: string, sep: char)
    requires sep !in w
    ensures Split(w, sep) == [w]
    decreases |w|
  {
    if |w| > 0 {
      SplitOneWord(w[1..], sep);
      assert [w[0]] + w[1..] == w;
    }
  }

  /** A slug without hyphens is one capitalized word. */
  lemma FormatOneWord(w: string)
    requires '-' !in w
    ensures FormatRepoName(w) == Capitalize(w)
  {
    SplitOneWord(w, '-');
  }

  /** The first hyphen-free piece of a slug is capitalized and followed by a space. */
  lemma FormatFirstWord(w: string, rest: string)
    requires '-' !in w
    ensures FormatRepoName(w + "-" + rest) == Capitalize(w) + " " + FormatRepoName(rest)
  {
    SplitFirstWord(w, rest, '-');
    var ps := Split(rest, '-');
    assert CapitalizeAll([w] + ps) == [Capitalize(w)] + CapitalizeAll(ps);
    assert ([Capitalize(w)] + CapitalizeAll(ps))[1..] == CapitalizeAll(ps);
  }

  lemma ExampleSpelling()
    ensures "node-live-transcription" == "node" + "-" + ("live" + "-" + "transcription")
    ensures "Node" + " " + ("Live" + " " + "Transcription") == "Node Live Transcription"
  {
  }

  lemma ExampleWords()
    ensures Capitalize("node") == "Node"
    ensures Capitalize("live") == "Live"
    ensures Capitalize("transcription") == "Transcription"
  {
  }

  /** A slug of two hyphen-free pieces is two capitalized words. */
  lemma FormatTwoWords(a: string, b: string)
    requires '-' !in a && '-' !in b
    ensures FormatRepoName(a + "-" + b) == Capitalize(a) + " " + Capitalize(b)
  {
    FormatFirstWord(a, b);
    FormatOneWord(b);
  }

  lemma ExampleTail()
    ensures FormatRepoName("live" + "-" + "transcription") == "Live" + " " + "Transcription"
  {
    FormatTwoWords("live", "transcription");
    ExampleWords();
  }

  /** The slug's own example: `node-live-transcription`. */
  lemma FormatRepoNameExample()
    ensures FormatRepoName("node-live-transcription") == "Node Live Transcription"
  {
    ExampleSpelling();
    ExampleWords();
    ExampleTail();
    FormatFirstWord("node", "live" + "-" + "transcription");
  }

  // ---------------------------------------------------------------------------
  // transformToProcessedStarters
  // ---------------------------------------------------------------------------

  /** `repo.repo_config?.meta?.<field>`. */
  function MetaField(repo: Repo, field: Meta -> Option<string>): Option<string>
  {
    Then(Then(repo.repoConfig, (c: TomlConfig) => c.meta), field)
  }

  /** `repo.repo_config?.links?.<field>`. */
  function LinkField(repo: Repo, field: ConfigLinks -> Option<string>): Option<string>
  {
    Then(Then(repo.repoConfig, (c: TomlConfig) => c.links), field)
  }

  function ConfigTags(repo: Repo): Option<seq<string>>
  {
    Then(repo.repoConfig, (c: TomlConfig) => c.tags)
  }

  /**
   The display record of one repository. Identity, source link and statistics
   come from the repository alone; description and language are never empty;
   vertical and the retained configuration are never set.
   */
  function ToStarter(repo: Repo): (s: ProcessedStarter)
    ensures s.id == repo.id && s.name == repo.name && s.links.github == repo.htmlUrl
    ensures s.stats == Stats(repo.stargazersCount, repo.forksCount, repo.updatedAt)
    ensures s.description != "" && s.language != ""
    ensures s.title == "" <==> !Truthy(MetaField(repo, (m: Meta) => m.title)) && repo.name == ""
    ensures s.vertical.None? && s.config.None?
  {
    ProcessedStarter(
      id := repo.id,
      name := repo.name,
      title := OrElse(MetaField(repo, (m: Meta) => m.title), FormatRepoName(repo.name)),
      description := OrElse(Or(MetaField(repo, (m: Meta) => m.description), repo.description), NoDescription),
      language := OrElse(Or(MetaField(repo, (m: Meta) => m.language), repo.language), UnknownLanguage),
      framework := MetaField(repo, (m: Meta) => m.framework),
      category := MetaField(repo, (m: Meta) => m.useCase),
      vertical := None,
      tags := match OrList(ConfigTags(repo), repo.topics) case Some(t) => t case None => [],
      links := StarterLinks(
        github := repo.htmlUrl,
        docs := LinkField(repo, (l: ConfigLinks) => l.docs),
        demo := LinkField(repo, (l: ConfigLinks) => l.demo),
        video := LinkField(repo, (l: ConfigLinks) => l.video)),
      stats := Stats(repo.stargazersCount, repo.forksCount, repo.updatedAt),
      deployment := Then(repo.repoConfig, (c: TomlConfig) => c.deployment),
      config := None)
  }

  /** `transformToProcessedStarters`: one display record per repository, in order. */
  function TransformToProcessedStarters(repos: seq<Repo>): (starters: seq<ProcessedStarter>)
    ensures |starters| == |repos|
    ensures forall i :: 0 <= i < |repos| ==> starters[i] == ToStarter(repos[i])
  {
    seq(|repos|, i requires 0 <= i < |repos| => ToStarter(repos[i]))
  }

  // ---------------------------------------------------------------------------
  // Merge precedence, field by field
  // ---------------------------------------------------------------------------

  /** Title: the configured `meta.title` when non-empty, else the formatted slug. */
  lemma TitlePrecedence(repo: Repo)
    ensures repo.repoConfig.Some? && repo.repoConfig.value.meta.Some?
            && Truthy(repo.repoConfig.value.meta.value.title)
            ==> ToStarter(repo).title == repo.repoConfig.value.meta.value.title.value
    ensures (repo.repoConfig.None? || repo.repoConfig.value.meta.None?
             || !Truthy(repo.repoConfig.value.meta.value.title))
            ==> ToStarter(repo).title == FormatRepoName(repo.name)
  {
  }

  /**
   Description and language: the configured value, else the repository's,
   else the fixed fallback; an empty string at any step falls through.
   */
  lemma DescriptionAndLanguagePrecedence(repo: Repo)
    ensures var configured := MetaField(repo, (m: Meta) => m.description);
      ToStarter(repo).description ==
        if Truthy(configured) then configured.value
        else if Truthy(repo.description) then repo.description.value
        else "No description available"
    ensures var configured := MetaField(repo, (m: Meta) => m.language);
      ToStarter(repo).language ==
        if Truthy(configured) then configured.value
        else if Truthy(repo.language) then repo.language.value
        else "Unknown"
  {
  }

  /**
   Tags: the configured list whenever the configuration has one, even an empty
   one; else the repository's topics; else no tags.
   */
  lemma TagsPrecedence(repo: Repo)
    ensures repo.repoConfig.Some? && repo.repoConfig.value.tags.Some?
            ==> ToStarter(repo).tags == repo.repoConfig.value.tags.value
    ensures (repo.repoConfig.None? || repo.repoConfig.value.tags.None?) && repo.topics.Some?
            ==> ToStarter(repo).tags == repo.topics.value
    ensures (repo.repoConfig.None? || repo.repoConfig.value.tags.None?) && repo.topics.None?
            ==> ToStarter(repo).tags == []
  {
  }

  /**
   Category is the configured use case and framework the configured framework,
   passed through as they are (an empty string stays an empty string);
   neither has a repository-side source.
   */
  lemma CategoryAndFrameworkFromConfigOnly(repo: Repo)
    ensures repo.repoConfig.None? ==> ToStarter(repo).category.None? && ToStarter(repo).framework.None?
    ensures repo.repoConfig.Some? && repo.repoConfig.value.meta.None? ==>
      ToStarter(repo).category.None? && ToStarter(repo).framework.None?
    ensures repo.repoConfig.Some? && repo.repoConfig.value.meta.Some? ==>
      ToStarter(repo).category == repo.repoConfig.value.meta.value.useCase &&
      ToStarter(repo).framework == repo.repoConfig.value.meta.value.framework
  {
  }

  /**
   Only the `meta`, `tags`, `links` and `deployment` tables of a configuration
   reach the display record: two configurations that agree on those give the
   same record, whatever their other tables and legacy keys say.
   */
  lemma OnlyReadTablesMatter(repo: Repo, c1: TomlConfig, c2: TomlConfig)
    requires c1.meta == c2.meta && c1.tags == c2.tags
    requires c1.links == c2.links && c1.deployment == c2.deployment
    ensures ToStarter(repo.(repoConfig := Some(c1))) == ToStarter(repo.(repoConfig := Some(c2)))
  {
  }

  /** A repository without configuration gets only raw values and fallbacks. */
  lemma NoConfigFallbacks(repo: Repo)
    requires repo.repoConfig.None?
    ensures ToStarter(repo).title == FormatRepoName(repo.name)
    ensures ToStarter(repo).description == OrElse(repo.description, "No description available")
    ensures ToStarter(repo).language == OrElse(repo.language, "Unknown")
    ensures ToStarter(repo).tags == (if repo.topics.Some? then repo.topics.value else [])
    ensures ToStarter(repo).framework.None? && ToStarter(repo).category.None?
    ensures ToStarter(repo).links == StarterLinks(repo.htmlUrl, None, None, None)
    ensures ToStarter(repo).deployment.None?
  {
  }

  // ---------------------------------------------------------------------------
  // Worked scenarios
  // ---------------------------------------------------------------------------

  function SampleRepo(config: Option<TomlConfig>): Repo
  {
    Repo(
      id := 1,
      name := "node-live-transcription",
      fullName := "deepgram-starters/node-live-transcription",
      description := Some("Live transcription demo"),
      htmlUrl := "https://github.com/deepgram-starters/node-live-transcription",
      cloneUrl := "https://github.com/deepgram-starters/node-live-transcription.git",
      language := Some("JavaScript"),
      topics := Some([]),
      stargazersCount := 0,
      forksCount := 0,
      createdAt := "2024-01-01T00:00:00Z",
      updatedAt := "2024-01-01T00:00:00Z",
      pushedAt := "2024-01-01T00:00:00Z",
      owner := Owner("deepgram-starters", "", ""),
      repoConfig := config)
  }

  function EmptyMeta(): Meta
  {
    Meta(None, None, None, None, None, None)
  }

  function ConfigWithMeta(meta: Meta): TomlConfig
  {
    TomlConfig(Some(meta), None, None, None, None, None, None, None, None, None, None,
               None, None, None, None, None)
  }

  /** No configuration file: derived title, raw description and language, no tags. */
  lemma ScenarioWithoutConfig()
    ensures var s := ToStarter(SampleRepo(None));
      s.title == "Node Live Transcription" && s.description == "Live transcription demo"
      && s.language == "JavaScript" && s.tags == []
  {
    FormatRepoNameExample();
  }

  /** A configured title and framework win; the missing description falls back to the raw one. */
  lemma ScenarioWithConfig()
    ensures var s := ToStarter(SampleRepo(Some(ConfigWithMeta(
              EmptyMeta().(title := Some("Node Transcriber"), framework := Some("Express"))))));
      s.title == "Node Transcriber" && s.description == "Live transcription demo"
      && s.framework == Some("Express") && s.language == "JavaScript"
  {
  }
}

=== FILE: types.dfy ===
/**
 The records the pipeline passes along (src/types/index.ts): a repository as
 the hosting API lists it, the parsed `deepgram.toml` configuration file, the
 display record the gallery shows, and the filter state the page hands down.
 Every `?:` field and every `| null` field is an `Option`.
 */
module Types {
  import opened Js

  datatype Owner = Owner(login: string, avatarUrl: string, htmlUrl: string)

  /** The `[meta]` table of the configuration file. */
  datatype Meta = Meta(
    title: Option<string>,
    description: Option<string>,
    author: Option<string>,
    useCase: Option<string>,
    language: Option<string>,
    framework: Option<string>)

  datatype Build = Build(command: Option<string>)

  datatype SampleConfig = SampleConfig(sample: Option<string>, output: Option<string>)

  datatype PostBuild = PostBuild(message: Option<string>)

  datatype Deployment = Deployment(platforms: Option<seq<string>>, requirements: Option<seq<string>>)

  datatype ConfigLinks = ConfigLinks(docs: Option<string>, demo: Option<string>, video: Option<string>)

  datatype Author = Author(name: Option<string>, email: Option<string>, github: Option<string>)

  datatype Requirements = Requirements(
    node: Option<string>,
    python: Option<string>,
    dependencies: Option<seq<string>>)

  /**
   A parsed `deepgram.toml`. The top-level `title` .. `vertical` strings are
   legacy keys that the transform never reads.
   */
  datatype TomlConfig = TomlConfig(
    meta: Option<Meta>,
    build: Option<Build>,
    config: Option<SampleConfig>,
    postBuild: Option<PostBuild>,
    title: Option<string>,
    description: Option<string>,
    category: Option<string>,
    language: Option<string>,
    framework: Option<string>,
    use_case: Option<string>,
    vertical: Option<string>,
    tags: Option<seq<string>>,
    deployment: Option<Deployment>,
    links: Option<ConfigLinks>,
    author: Option<Author>,
    requirements: Option<Requirements>)

  /**
   One repository of the organization. `description` and `language` are
   `null` when the host has none; `topics` is absent in listings that omit it;
   `repoConfig` is attached by the listing step when a configuration file loads.
   */
  datatype Repo = Repo(
    id: int,
    name: string,
    fullName: string,
    description: Option<string>,
    htmlUrl: string,
    cloneUrl: string,
    language: Option<string>,
    topics: Option<seq<string>>,
    stargazersCount: int,
    forksCount: int,
    createdAt: string,
    updatedAt: string,
    pushedAt: string,
    owner: Owner,
    repoConfig: Option<TomlConfig>)

  datatype StarterLinks = StarterLinks(
    github: string,
    docs: Option<string>,
    demo: Option<string>,
    video: Option<string>)

  datatype Stats = Stats(stars: int, forks: int, lastUpdated: string)

  /** The display record of one starter. */
  datatype ProcessedStarter = ProcessedStarter(
    id: int,
    name: string,
    title: string,
    description: string,
    language: string,
    framework: Option<string>,
    category: Option<string>,
    vertical: Option<string>,
    tags: seq<string>,
    links: StarterLinks,
    stats: Stats,
    deployment: Option<Deployment>,
    config: Option<TomlConfig>)

  /** Search text and multi-select lists; any of them may be left out. */
  datatype FilterState = FilterState(
    search: Option<string>,
    language: Option<seq<string>>,
    category: Option<seq<string>>,
    framework: Option<seq<string>>,
    vertical: Option<seq<string>>,
    tags: Option<seq<string>>)
}
